=== FILE: README.md ===
# CardScanner text extractors, in Dafny

The card reader screen of CardScanner-Sample runs text recognition on every
camera frame. It then passes each recognised line to two pattern extractors:

- `expireDateString` looks for an expiry date `MM/YY` at the end of a line.
- `cardNumber` looks for four spaces followed by an issuer-family digit run
  (Visa, MasterCard, Discover, Diners Club, a `3[47]` branch, JCB).

This project models those two extractors and the per-frame step that applies
them. Everything is pure functions over `string` (`seq<char>`) and
`seq<string>`.

- `regex.dfy` (`Regex`): the part of the regular-expression language that the
  two patterns use. It has `.`, literals, bracket classes, concatenation,
  alternation, `*`, `{n}`, `?` and capture groups. `Matches(r, w)` is the
  language of a pattern. `RangeCount(r)` is the number of ranges a match
  result carries (`numberOfRanges`). Lemmas cover fixed-width concatenation,
  literals and `[class]{n}`.
- `expiry.dfy` (`Expiry`): the pattern `^.*(0[1-9]|1[0-2])\/([1-2][0-9])$` as a
  `Regex` value, and `ExpireDateString`, a recogniser that reads the last five
  characters. Lemmas prove the recogniser equal to the pattern, including its
  two capture groups.
- `card_number.dfy` (`CardNumbers`): the card-number pattern as a `Regex`
  value, with each alternative proved equal to a character-level reading. It
  also has the leftmost search that `matches(in:)` performs and the match it
  picks at a start. `CardNumber` is that search with the pattern as written,
  and `CardNumberCall` is what the function then does with its result.
- `frame.dfy` (`Frame`): the extraction step of the recognition callback.
  An empty list of lines returns early. Otherwise empty lines are dropped and
  each extractor is `compactMap`ped over the rest.

## Model

| member | source | states |
|---|---|---|
| `Expiry.ExpireDateString` | CardScanner-Sample/CardScanner-Sample/CreditCardReaderViewController.swift:219-236 | on success the line is a prefix, then the returned month, `/`, then the returned year; the month is 01–12 and the year 10–29 |
| `Expiry.ExpiryPatternHasTwoGroups` | CardScanner-Sample/CardScanner-Sample/CreditCardReaderViewController.swift:220-233 | a match carries three ranges: the whole match, the month and the year, so `range(at: 1)` and `range(at: 2)` are in range |
| `Expiry.MonthGroupIsMonth` | CardScanner-Sample/CardScanner-Sample/CreditCardReaderViewController.swift:220 | capture group 1, `0[1-9]` or `1[0-2]`, matches exactly the two-character months "01" to "12" |
| `Expiry.YearGroupIsYear` | CardScanner-Sample/CardScanner-Sample/CreditCardReaderViewController.swift:220 | group `([1-2][0-9])` matches exactly "10" to "29" |
| `Expiry.DateTailChars` | CardScanner-Sample/CardScanner-Sample/CreditCardReaderViewController.swift:220 | the part after `.*` matches exactly five characters: a month, a slash and a year |
| `Expiry.ExpireDateStringMatchesPattern` | CardScanner-Sample/CardScanner-Sample/CreditCardReaderViewController.swift:220-228 | the function returns a value exactly when the anchored pattern matches the whole line, and `nil` when it has no match |
| `Expiry.ExpireDateStringCaptures` | CardScanner-Sample/CardScanner-Sample/CreditCardReaderViewController.swift:230-235 | the result is `(m, y)` exactly when the line is some prefix + `m` + "/" + `y` with `m` in capture group 1 and `y` in capture group 2 (both directions) |
| `Expiry.LastFive` | CardScanner-Sample/CardScanner-Sample/CreditCardReaderViewController.swift:230-235 | in prefix + m + "/" + y the captures are the characters at n-5..n-4 and n-2..n-1 |
| `Expiry.RoundTrip` | CardScanner-Sample/CardScanner-Sample/CreditCardReaderViewController.swift:219-236 | any prefix followed by a valid month, "/" and a valid year gives back exactly that month and year |
| `Expiry.OnlyLastFiveMatter` | CardScanner-Sample/CardScanner-Sample/CreditCardReaderViewController.swift:220 | text in front of the last five characters never changes the result (`^.*`) |
| `Expiry.TrailingCharacterRejected` | CardScanner-Sample/CardScanner-Sample/CreditCardReaderViewController.swift:220 | appending any character other than a line terminator to a line with a date makes the result `nil` (`$`); the model also rejects a trailing terminator, where ICU would not (see "## Left out") |
| `Expiry.Examples` | CardScanner-Sample/CardScanner-Sample/CreditCardReaderViewController.swift:220-228 | "EXP 12/25" and "12/25" give ("12","25"); "12/25 ", "00/25", "13/25", "12/35" and "2/25" give `nil` |
| `CardNumbers.VisaBranchMatches` | CardScanner-Sample/CardScanner-Sample/CreditCardReaderViewController.swift:241 | `4[0-9]{12}(?:[0-9]{3})?` matches exactly a 4 followed by 12 or 15 digits |
| `CardNumbers.MasterCardBranchMatches` | CardScanner-Sample/CardScanner-Sample/CreditCardReaderViewController.swift:241 | `5[1-5][0-9]{14}` matches exactly 51–55 followed by 14 digits |
| `CardNumbers.LitThenDigits` | CardScanner-Sample/CardScanner-Sample/CreditCardReaderViewController.swift:241 | a literal prefix then `[0-9]{n}` matches exactly that prefix followed by n digits |
| `CardNumbers.DiscoverBranchMatches` | CardScanner-Sample/CardScanner-Sample/CreditCardReaderViewController.swift:241 | `6011[0-9]{12}` matches exactly 6011 followed by 12 digits |
| `CardNumbers.DinersBranchMatches` | CardScanner-Sample/CardScanner-Sample/CreditCardReaderViewController.swift:241 | `3`, then `0[0-5]` or `[68][0-9]`, then `[0-9]{11}`, matches exactly 300–305, 36x or 38x followed by 11 digits |
| `CardNumbers.FourSevenBranchMatches` | CardScanner-Sample/CardScanner-Sample/CreditCardReaderViewController.swift:241 | as written, `3[47]{13}` matches exactly a 3 and thirteen characters each 4 or 7; the repaired branch matches 34 or 37 and 13 digits |
| `CardNumbers.JcbThirtyFiveMatches` | CardScanner-Sample/CardScanner-Sample/CreditCardReaderViewController.swift:241 | `35[0-9]{3}[0-9]{11}` matches exactly 35 followed by 14 digits |
| `CardNumbers.JcbBranchMatches` | CardScanner-Sample/CardScanner-Sample/CreditCardReaderViewController.swift:241 | `2131`, `1800` or `35[0-9]{3}`, then `[0-9]{11}`, matches exactly 2131 or 1800 followed by 11 digits, or 35 followed by 14 digits |
| `CardNumbers.IssuerPatternMatches` | CardScanner-Sample/CardScanner-Sample/CreditCardReaderViewController.swift:241 | the six-way alternation matches a word exactly when it is an issuer run of one of the six families |
| `CardNumbers.RunsAtOneStart` | CardScanner-Sample/CardScanner-Sample/CreditCardReaderViewController.swift:241 | two issuer runs at the same start have the same length, except the 13- and 16-digit Visa runs, so only the optional group leaves a choice |
| `CardNumbers.RunAt` | CardScanner-Sample/CardScanner-Sample/CreditCardReaderViewController.swift:241 | trying the alternatives in order, and taking the optional digits when they are there, picks an issuer run at the start; it is the longest one, and `None` means no prefix is an issuer run |
| `CardNumbers.MatchEndAt` | CardScanner-Sample/CardScanner-Sample/CreditCardReaderViewController.swift:241 | at one start, the match taken is four spaces and an issuer run, no longer match exists there, and `None` means nothing matches at that start |
| `CardNumbers.FirstMatchFrom` | CardScanner-Sample/CardScanner-Sample/CreditCardReaderViewController.swift:245 | the search returns a match with no match starting earlier, and returns `None` exactly when no start from `i` on matches |
| `CardNumbers.FirstMatch` | CardScanner-Sample/CardScanner-Sample/CreditCardReaderViewController.swift:245-249 | the first element of `matches(in:)`: a match that no earlier start beats and no longer match at its start beats; `None` exactly when the line has no match |
| `CardNumbers.CardNumber` | CardScanner-Sample/CardScanner-Sample/CreditCardReaderViewController.swift:239-249 | the search with the pattern as written: a result is four spaces at its start followed by an issuer run of the written pattern (`3[47]{13}` included); `None` means the pattern matches no substring of the line |
| `CardNumbers.RepairedCardNumber` | CardScanner-Sample/CardScanner-Sample/CreditCardReaderViewController.swift:241-249 | the same search with `3[47][0-9]{13}`: a result is four spaces followed by an issuer run of the repaired pattern; `None` means that pattern matches nowhere in the line |
| `CardNumbers.CardNumberCall` | CardScanner-Sample/CardScanner-Sample/CreditCardReaderViewController.swift:239-257 | the function returns `nil` exactly when the pattern has no match in the line; on a match it asks for `range(at: 1)` and stops |
| `CardNumbers.CardPatternHasOnlyRangeZero` | CardScanner-Sample/CardScanner-Sample/CreditCardReaderViewController.swift:241 | every group in the pattern is `(?:...)`, so a match carries one range, the whole match |
| `CardNumbers.CardNumberNeverReturnsANumber` | CardScanner-Sample/CardScanner-Sample/CreditCardReaderViewController.swift:245-256 | as written the function never returns a pair: no match gives `nil` and a match traps, the model's reading of `range(at: 1)` past the last range; the proved content is that the pattern carries at most one range, so range 1 does not exist |
| `CardNumbers.TrapExample` | CardScanner-Sample/CardScanner-Sample/CreditCardReaderViewController.swift:245-252 | "    4111111111111111" (the Visa test number after four spaces) matches, so the call stops at `range(at: 1)` |
| `CardNumbers.MatchedNumber` | CardScanner-Sample/CardScanner-Sample/CreditCardReaderViewController.swift:239-257 | a returned number is an issuer run taken from the line itself: it sits right after the four spaces of a match, no match starts earlier, and no longer match starts there (the greedy `(?:[0-9]{3})?`); `None` exactly when the pattern matches no substring of the line |
| `CardNumbers.MatchedNumberRoundTrip` | CardScanner-Sample/CardScanner-Sample/CreditCardReaderViewController.swift:239-257 | four spaces followed by any issuer run give back exactly that run |
| `CardNumbers.MatchAtIsPattern` | CardScanner-Sample/CardScanner-Sample/CreditCardReaderViewController.swift:241 | `s[i..k]` is four spaces and an issuer run exactly when the whole pattern matches `s[i..k]` |
| `CardNumbers.FirstMatchIsLeftmostPatternMatch` | CardScanner-Sample/CardScanner-Sample/CreditCardReaderViewController.swift:241-249 | `nil` exactly when the pattern matches no substring; otherwise the span matches, no earlier start matches, and nothing longer matches at that start |
| `CardNumbers.NoMatchWithoutLead` | CardScanner-Sample/CardScanner-Sample/CreditCardReaderViewController.swift:241 | a line without four consecutive spaces never matches |
| `CardNumbers.DigitsNeverMatch` | CardScanner-Sample/CardScanner-Sample/CreditCardReaderViewController.swift:241 | a bare digit string never matches |
| `CardNumbers.MatchSurvivesContext` | CardScanner-Sample/CardScanner-Sample/CreditCardReaderViewController.swift:241-249 | text added before or after a matching line keeps a match (the search is unanchored), starting no later than before |
| `CardNumbers.VersionsDifferOnlyOnThirtyFourThirtySeven` | CardScanner-Sample/CardScanner-Sample/CreditCardReaderViewController.swift:241 | the repaired pattern accepts the same runs as the written one, except runs that begin with 34 or 37 |
| `CardNumbers.AsWrittenMissesAmex` | CardScanner-Sample/CardScanner-Sample/CreditCardReaderViewController.swift:241 | as written, `CardNumber` finds no match in four spaces and a 15-digit 34/37 number unless its digits after the 3 are all 4s and 7s |
| `CardNumbers.IntendedFindsAmex` | CardScanner-Sample/CardScanner-Sample/CreditCardReaderViewController.swift:241 | `RepairedCardNumber` matches four spaces and any 15-digit 34/37 number over the whole line |
| `CardNumbers.AmexExample` | CardScanner-Sample/CardScanner-Sample/CreditCardReaderViewController.swift:241 | `CardNumber` finds no match in "    378282246310005"; `RepairedCardNumber` matches it in full |
| `Frame.NonEmptyLines` | CardScanner-Sample/CardScanner-Sample/CreditCardReaderViewController.swift:170 | the filter keeps exactly the lines that are not empty, and never more lines than it was given; order and multiplicity are `NonEmptyLinesAppend` and `NonEmptyLinesOne` |
| `Frame.NonEmptyLinesAppend` | CardScanner-Sample/CardScanner-Sample/CreditCardReaderViewController.swift:170 | filtering `a + b` gives the filtered `a` followed by the filtered `b` |
| `Frame.NonEmptyLinesOne` | CardScanner-Sample/CardScanner-Sample/CreditCardReaderViewController.swift:170 | one line is kept, once, exactly when it is not empty |
| `Frame.CompactMap` | CardScanner-Sample/CardScanner-Sample/CreditCardReaderViewController.swift:170-172 | `compactMap` never returns more values than lines, and nothing when every call returns `nil`; order and multiplicity are `CompactMapAppend` and `CompactMapOne` |
| `Frame.CompactMapAppend` | CardScanner-Sample/CardScanner-Sample/CreditCardReaderViewController.swift:170-172 | mapping `a + b` gives the values for `a` followed by the values for `b` |
| `Frame.CompactMapOne` | CardScanner-Sample/CardScanner-Sample/CreditCardReaderViewController.swift:170-172 | one line gives its call's value, once, when it is not `nil`, and nothing otherwise |
| `Frame.Extract` | CardScanner-Sample/CardScanner-Sample/CreditCardReaderViewController.swift:170-177 | one extractor over a frame gives at most one value per non-empty line, and nothing when every line is empty or gives `nil`; per line and in order by `ExtractOneLine` and `ExtractAppend` |
| `Frame.ProcessFrame` | CardScanner-Sample/CardScanner-Sample/CreditCardReaderViewController.swift:167-177 | no result exactly when recognition gave no lines; otherwise each list has at most as many entries as there are non-empty lines, and a value is in the expiry list, or the card-number list, exactly when some non-empty line gave it to `expireDateString`, or to the as-written `CardNumber` |
| `Frame.ExtractCons` | CardScanner-Sample/CardScanner-Sample/CreditCardReaderViewController.swift:170-177 | the first line's result comes first, followed by the results of the remaining lines |
| `Frame.ExtractOneLine` | CardScanner-Sample/CardScanner-Sample/CreditCardReaderViewController.swift:170-177 | one line yields its extractor's value if the line is not empty and the value is not `nil`, and nothing otherwise |
| `Frame.ExtractAppend` | CardScanner-Sample/CardScanner-Sample/CreditCardReaderViewController.swift:170-177 | the output for `a + b` is the output for `a` followed by the output for `b`, so results keep line order |
| `Frame.ExtractMembership` | CardScanner-Sample/CardScanner-Sample/CreditCardReaderViewController.swift:170-177 | a value is in the output exactly when some non-empty line's extractor returned it |
| `Frame.FilterIsUnobservable` | CardScanner-Sample/CardScanner-Sample/CreditCardReaderViewController.swift:170-177 | when the extractor returns `nil` on "", dropping empty lines does not change the output |
| `Frame.FilterIsRedundant` | CardScanner-Sample/CardScanner-Sample/CreditCardReaderViewController.swift:170-177 | for both extractors the empty-line filter does not change the output |
| `Frame.FrameExamples` | CardScanner-Sample/CardScanner-Sample/CreditCardReaderViewController.swift:167-177 | no lines give no result; ["", "EXP 12/25", ""] gives the date ("12","25") and no card number |
| `Frame.ExpiryLineExample` | CardScanner-Sample/CardScanner-Sample/CreditCardReaderViewController.swift:170-172 | the expiry extractor over ["", "EXP 12/25", ""] gives exactly ("12","25") |
| `Frame.NoCardNumberOnExpiryLine` | CardScanner-Sample/CardScanner-Sample/CreditCardReaderViewController.swift:175-177 | "EXP 12/25" has no card-number match |

## Left out

- Camera permission, capture session, device choice, preview layer and crop
  mask (`CreditCardReaderViewController.swift:40-140`, `:197-217`) are UIKit
  and AVFoundation plumbing.
- Vision text recognition and the sample-buffer to image conversion (`:150-164`,
  `:185-190`) are foreign calls. The recognised lines are the model's input.
- The `DispatchSemaphore` (`:142`, `:147`, `:192`) is concurrency and is not
  modelled. It is never signalled on the early returns at `:150-152` and
  `:156-158`.
- The results are only printed (`:173`, `:178`) and `:180` is a TODO. There is
  no consensus counter, confirmation threshold or completion callback in the
  code, so none is modelled.
- A regular-expression compilation failure (`:220-222`, `:241-243`) cannot
  happen: both patterns are constants that compile. The `nil` returns on
  `Range` conversion (`:230-233`) cannot happen either. Ranges 1 and 2 exist
  (`Expiry.ExpiryPatternHasTwoGroups`), and both groups take part in every
  match because neither sits under `|`, `?` or `*`. That last fact is read
  off the pattern, not proved.
- Expiry.ExpireDateString: in ICU, `.` does not match line terminators, and
  `$` also matches before a line terminator that ends the input. The model
  treats every character alike, so it is exact only for lines without line
  terminators.
- NSRange counts UTF-16 code units and Swift strings count grapheme clusters.
  The model counts `char`s, which gives the same result for lines of single
  code-unit characters.
- CardNumbers.CardNumber: a `Some(span)` result, and each entry of
  `Frame.ProcessFrame`'s `cardNumbers`, stands only for "the pattern matched
  this line". The function itself never returns a value
  (`CardNumbers.CardNumberNeverReturnsANumber`): a frame in which some line
  matches ends in a runtime exception, which the frame model does not follow.
- `ViewController.swift` presents the scanner and formats a label. It is UI only.

## Findings

| source | as written | input that shows it | evidently intended | confidence | as-written member | corrected member |
|---|---|---|---|---|---|---|
| CardScanner-Sample/CardScanner-Sample/CreditCardReaderViewController.swift:241 | `3[47]{13}`: a 3 followed by thirteen characters each 4 or 7 | `"    378282246310005"` (the American Express test number after four spaces): no match | `3[47][0-9]{13}`, the American Express branch of the common issuer pattern whose other five branches the source copies verbatim | high (not executed) | `CardNumbers.AsWrittenMissesAmex` | `CardNumbers.IntendedFindsAmex` |
| CardScanner-Sample/CardScanner-Sample/CreditCardReaderViewController.swift:251-256 | the result is built from `range(at: 1)` and `range(at: 2)`, but every group of the pattern is `(?:...)`, so a match carries only range 0 | `"    4111111111111111"`: the pattern matches and `range(at: 1)` is out of range, which raises an exception (the model takes the raise as its reading of `range(at:)` and proves only the missing range) | return the matched digit run, the part of range 0 after the four spaces | medium (not executed) | `CardNumbers.CardNumberNeverReturnsANumber` | `CardNumbers.MatchedNumberRoundTrip` |

`CardNumbers.CardNumber`, and through it `Frame.ProcessFrame`, keep the
pattern exactly as written. `CardNumbers.RepairedCardNumber` is the search
with the repaired branch. `CardNumbers.VersionsDifferOnlyOnThirtyFourThirtySeven`
shows that the two versions differ only on runs that begin with 34 or 37.
`CardNumbers.MatchedNumber` is the value the function evidently means to
return: the digits of the first match.

=== FILE: card_number.dfy ===
/**
  `cardNumber`: an unanchored search for the issuer-family pattern

      "    (?:4[0-9]{12}(?:[0-9]{3})?|5[1-5][0-9]{14}|6011[0-9]{12}|
           3(?:0[0-5]|[68][0-9])[0-9]{11}|3[47]{13}|(?:2131|1800|35[0-9]{3})[0-9]{11})"

  (four literal spaces, then one of six alternatives) in one recognised line.
  `FirstMatch` is the first element of `matches(in:)`; `CardNumberCall` is
  what the function then does with it.
*/
module CardNumbers {
  import opened Wrappers
  import opened Regex

  /**
    The fifth alternative reads `3[47]{13}` in the pattern: a `3` followed by
    thirteen characters each `4` or `7`. The well-known issuer pattern this one
    follows has `3[47][0-9]{13}` there (American Express: 34 or 37, fifteen
    digits). `AsWritten` is the pattern as it stands, `Intended` the repaired one.
  */
  datatype Version = AsWritten | Intended

  /** `[0-9]`, the one notion of a digit used throughout. */
  const DigitClass: CharClass := Range('0', '9')

  const Digit: Regex := Class(DigitClass)

  /** `[0-9]{n}` */
  function Digits(n: nat): (r: Regex)
    ensures Width(r) == Some(n)
  {
    Repeat(Digit, n)
  }

  /** The four literal spaces the pattern starts with. */
  const Lead: string := "    "

  /** `4[0-9]{12}(?:[0-9]{3})?` */
  const VisaBranch: Regex := Cat(Lit("4"), Cat(Digits(12), Opt(Digits(3))))

  /** `5[1-5][0-9]{14}` */
  const MasterCardBranch: Regex := Cat(Lit("5"), Cat(Class(Range('1', '5')), Digits(14)))

  /** `6011[0-9]{12}` */
  const DiscoverBranch: Regex := Cat(Lit("6011"), Digits(12))

  /** `3(?:0[0-5]|[68][0-9])[0-9]{11}` */
  const DinersBranch: Regex :=
    Cat(Lit("3"), Cat(Alt(Cat(Lit("0"), Class(Range('0', '5'))), Cat(Class(OneOf("68")), Digit)), Digits(11)))

  /** `3[47]{13}` as written; `3[47][0-9]{13}` as intended. */
  function FourSevenBranch(v: Version): Regex
  {
    match v
    case AsWritten => Cat(Lit("3"), Repeat(Class(OneOf("47")), 13))
    case Intended => Cat(Lit("3"), Cat(Class(OneOf("47")), Digits(13)))
  }

  /** `(?:2131|1800|35[0-9]{3})[0-9]{11}` */
  const JcbBranch: Regex :=
    Cat(Alt(Lit("2131"), Alt(Lit("1800"), Cat(Lit("35"), Digits(3)))), Digits(11))

  /** The six alternatives, in the order the pattern lists them. */
  function IssuerPattern(v: Version): Regex
  {
    Alt(VisaBranch, Alt(MasterCardBranch, Alt(DiscoverBranch, Alt(DinersBranch, Alt(FourSevenBranch(v), JcbBranch)))))
  }

  function CardPattern(v: Version): Regex
  {
    Cat(Lit(Lead), IssuerPattern(v))
  }

  // Character-level reading of each alternative.

  predicate IsDigit(c: char)
  {
    InClass(DigitClass, c)
  }

  predicate AllDigits(w: string)
  {
    AllIn(DigitClass, w)
  }

  predicate VisaRun(w: string)
  {
    (|w| == 13 || |w| == 16) && w[0] == '4' && AllDigits(w[1..])
  }

  predicate MasterCardRun(w: string)
  {
    |w| == 16 && w[0] == '5' && '1' <= w[1] <= '5' && AllDigits(w[2..])
  }

  predicate DiscoverRun(w: string)
  {
    |w| == 16 && w[..4] == "6011" && AllDigits(w[4..])
  }

  predicate DinersRun(w: string)
  {
    && |w| == 14
    && w[0] == '3'
    && ((w[1] == '0' && '0' <= w[2] <= '5') || ((w[1] == '6' || w[1] == '8') && IsDigit(w[2])))
    && AllDigits(w[3..])
  }

  predicate FourSevenRun(v: Version, w: string)
  {
    match v
    case AsWritten => |w| == 14 && w[0] == '3' && AllIn(OneOf("47"), w[1..])
    case Intended => |w| == 15 && w[0] == '3' && (w[1] == '4' || w[1] == '7') && AllDigits(w[2..])
  }

  predicate JcbRun(w: string)
  {
    || (|w| == 15 && (w[..4] == "2131" || w[..4] == "1800") && AllDigits(w[4..]))
    || (|w| == 16 && w[..2] == "35" && AllDigits(w[2..]))
  }

  /** A digit run of one of the six issuer families. */
  predicate IssuerRun(v: Version, w: string)
  {
    VisaRun(w) || MasterCardRun(w) || DiscoverRun(w) || DinersRun(w) || FourSevenRun(v, w) || JcbRun(w)
  }

  // Each alternative of the pattern matches exactly its character-level reading.

  /** `[0-9]{12}(?:[0-9]{3})?`: twelve digits, or fifteen. */
  lemma VisaDigitsMatch(u: string)
    ensures Matches(Cat(Digits(12), Opt(Digits(3))), u) <==> (|u| == 12 || |u| == 15) && AllDigits(u)
  {
    CatFixedLeft(Digits(12), Opt(Digits(3)), u);
    if |u| >= 12 {
      RepeatClassMatches(DigitClass, 12, u[..12]);
      RepeatClassMatches(DigitClass, 3, u[12..]);
      AltMatches(Digits(3), Empty, u[12..]);
      AllInSplit(DigitClass, u, 12);
    }
  }

  lemma VisaBranchMatches(w: string)
    ensures Matches(VisaBranch, w) <==> VisaRun(w)
  {
    CatFixedLeft(Lit("4"), Cat(Digits(12), Opt(Digits(3))), w);
    if |w| >= 1 {
      LitMatches("4", w[..1]);
      VisaDigitsMatch(w[1..]);
    }
  }

  lemma MasterCardBranchMatches(w: string)
    ensures Matches(MasterCardBranch, w) <==> MasterCardRun(w)
  {
    CatFixedLeft(Lit("5"), Cat(Class(Range('1', '5')), Digits(14)), w);
    if |w| >= 1 {
      LitMatches("5", w[..1]);
      CatFixedLeft(Class(Range('1', '5')), Digits(14), w[1..]);
      if |w| >= 2 {
        RepeatClassMatches(DigitClass, 14, w[1..][1..]);
        assert w[1..][1..] == w[2..];
      }
    }
  }

  lemma DiscoverBranchMatches(w: string)
    ensures Matches(DiscoverBranch, w) <==> DiscoverRun(w)
  {
    LitThenDigits("6011", 12, w);
  }

  lemma DinersBranchMatches(w: string)
    ensures Matches(DinersBranch, w) <==> DinersRun(w)
  {
    var second := Alt(Cat(Lit("0"), Class(Range('0', '5'))), Cat(Class(OneOf("68")), Digit));
    CatFixedLeft(Lit("3"), Cat(second, Digits(11)), w);
    if |w| >= 1 {
      LitMatches("3", w[..1]);
      var u := w[1..];
      assert Width(second) == Some(2);
      CatFixedLeft(second, Digits(11), u);
      if |u| >= 2 {
        var d := u[..2];
        CatFixedLeft(Lit("0"), Class(Range('0', '5')), d);
        LitMatches("0", d[..1]);
        CatFixedLeft(Class(OneOf("68")), Digit, d);
        RepeatClassMatches(DigitClass, 11, u[2..]);
        assert u[2..] == w[3..];
      }
    }
  }

  lemma FourSevenBranchMatches(v: Version, w: string)
    ensures Matches(FourSevenBranch(v), w) <==> FourSevenRun(v, w)
  {
    match v
    case AsWritten =>
      CatFixedLeft(Lit("3"), Repeat(Class(OneOf("47")), 13), w);
      if |w| >= 1 {
        LitMatches("3", w[..1]);
        RepeatClassMatches(OneOf("47"), 13, w[1..]);
      }
    case Intended =>
      CatFixedLeft(Lit("3"), Cat(Class(OneOf("47")), Digits(13)), w);
      if |w| >= 1 {
        LitMatches("3", w[..1]);
        CatFixedLeft(Class(OneOf("47")), Digits(13), w[1..]);
        if |w| >= 2 {
          RepeatClassMatches(DigitClass, 13, w[1..][1..]);
          assert w[1..][1..] == w[2..];
        }
      }
  }

  /** `<literal>[0-9]{n}`: the literal, then exactly `n` digits. */
  lemma LitThenDigits(prefix: string, n: nat, w: string)
    ensures Matches(Cat(Lit(prefix), Digits(n)), w) <==>
      |w| == |prefix| + n && w[..|prefix|] == prefix && AllDigits(w[|prefix|..])
  {
    CatFixedLeft(Lit(prefix), Digits(n), w);
    if |w| >= |prefix| {
      LitMatches(prefix, w[..|prefix|]);
      RepeatClassMatches(DigitClass, n, w[|prefix|..]);
    }
  }

  /** `35[0-9]{3}[0-9]{11}` */
  lemma JcbThirtyFiveMatches(w: string)
    ensures Matches(Cat(Cat(Lit("35"), Digits(3)), Digits(11)), w) <==>
      |w| == 16 && w[..2] == "35" && AllDigits(w[2..])
  {
    CatFixedLeft(Cat(Lit("35"), Digits(3)), Digits(11), w);
    if |w| >= 5 {
      var head := w[..5];
      LitThenDigits("35", 3, head);
      RepeatClassMatches(DigitClass, 11, w[5..]);
      AllInSplit(DigitClass, w[2..], 3);
      assert head[2..] == w[2..][..3];
      assert w[5..] == w[2..][3..];
      assert head[..2] == w[..2];
    }
  }

  lemma JcbBranchMatches(w: string)
    ensures Matches(JcbBranch, w) <==> JcbRun(w)
  {
    var a, b, c := Lit("2131"), Lit("1800"), Cat(Lit("35"), Digits(3));
    CatAltLeft(a, Alt(b, c), Digits(11), w);
    CatAltLeft(b, c, Digits(11), w);
    LitThenDigits("2131", 11, w);
    LitThenDigits("1800", 11, w);
    JcbThirtyFiveMatches(w);
  }

  /** The alternation as a whole matches exactly the issuer runs. */
  lemma IssuerPatternMatches(v: Version, w: string)
    ensures Matches(IssuerPattern(v), w) <==> IssuerRun(v, w)
  {
    var tail := Alt(FourSevenBranch(v), JcbBranch);
    var b4 := Alt(DinersBranch, tail);
    var b3 := Alt(DiscoverBranch, b4);
    var b2 := Alt(MasterCardBranch, b3);
    assert IssuerPattern(v) == Alt(VisaBranch, b2);
    VisaBranchMatches(w);
    MasterCardBranchMatches(w);
    DiscoverBranchMatches(w);
    DinersBranchMatches(w);
    FourSevenBranchMatches(v, w);
    JcbBranchMatches(w);
    AltMatches(FourSevenBranch(v), JcbBranch, w);
    AltMatches(DinersBranch, tail, w);
    AltMatches(DiscoverBranch, b4, w);
    AltMatches(MasterCardBranch, b3, w);
    AltMatches(VisaBranch, b2, w);
  }

  /**
    Two runs of the pattern that start at the same place have the same length,
    except a 13-digit and a 16-digit Visa run: the only choice left open is
    the optional `(?:[0-9]{3})?`.
  */
  lemma RunsAtOneStart(v: Version, w1: string, w2: string)
    requires IssuerRun(v, w1) && IssuerRun(v, w2)
    requires |w1| < |w2| && w1 == w2[..|w1|]
    ensures |w1| == 13 && |w2| == 16 && VisaRun(w1) && VisaRun(w2)
  {
    assert w1[0] == w2[0];
    assert w1[1] == w2[1];
    if |w1| >= 4 {
      assert w1[..4] == w2[..4];
    }
    assert w1[..2] == w2[..2];
  }

  /** The length of the issuer run the pattern would need at the start of `t`. */
  function FourSevenLength(v: Version): nat
  {
    match v
    case AsWritten => 14
    case Intended => 15
  }

  /**
    The run the matcher commits to at the start of `t` (the text after the four
    spaces): the alternatives are tried in the order the pattern lists them,
    and the optional three Visa digits are taken when they are there.
  */
  function RunAt(v: Version, t: string): (r: Option<nat>)
    ensures r.Some? ==> r.value <= |t| && IssuerRun(v, t[..r.value])
    ensures r.Some? ==> forall n :: r.value < n <= |t| ==> !IssuerRun(v, t[..n])
    ensures r.None? ==> forall n :: 0 <= n <= |t| ==> !IssuerRun(v, t[..n])
  {
    if 16 <= |t| && VisaRun(t[..16]) then Some(16)
    else if 13 <= |t| && VisaRun(t[..13]) then Some(13)
    else if 16 <= |t| && MasterCardRun(t[..16]) then Some(16)
    else if 16 <= |t| && DiscoverRun(t[..16]) then Some(16)
    else if 14 <= |t| && DinersRun(t[..14]) then Some(14)
    else if FourSevenLength(v) <= |t| && FourSevenRun(v, t[..FourSevenLength(v)]) then Some(FourSevenLength(v))
    else if 15 <= |t| && JcbRun(t[..15]) then Some(15)
    else if 16 <= |t| && JcbRun(t[..16]) then Some(16)
    else None
  }

  /** Where a match lies in the line: `s[start..end]`. */
  datatype Span = Span(start: nat, end: nat)

  /** The four spaces of the pattern stand at position `i`. */
  predicate LeadAt(s: string, i: nat)
  {
    i + 4 <= |s| && s[i..i + 4] == Lead
  }

  /** `s[i..k]` is four spaces followed by an issuer run. */
  predicate MatchAt(v: Version, s: string, i: nat, k: nat)
  {
    i + 4 <= k <= |s| && LeadAt(s, i) && IssuerRun(v, s[i + 4..k])
  }

  /** The end of the match the matcher takes when it tries start `i`. */
  function MatchEndAt(v: Version, s: string, i: nat): (r: Option<nat>)
    requires i <= |s|
    ensures r.Some? ==> MatchAt(v, s, i, r.value)
    ensures r.Some? ==> forall k :: r.value < k <= |s| ==> !MatchAt(v, s, i, k)
    ensures r.None? ==> forall k :: i <= k <= |s| ==> !MatchAt(v, s, i, k)
  {
    if LeadAt(s, i) then
      var t := s[i + 4..];
      match RunAt(v, t)
      case Some(n) =>
        assert t[..n] == s[i + 4..i + 4 + n];
        assert forall k :: i + 4 + n < k <= |s| ==> !MatchAt(v, s, i, k) by {
          forall k | i + 4 + n < k <= |s| ensures !MatchAt(v, s, i, k) {
            assert s[i + 4..k] == t[..k - i - 4];
          }
        }
        Some(i + 4 + n)
      case None =>
        assert forall k :: i <= k <= |s| ==> !MatchAt(v, s, i, k) by {
          forall k | i + 4 <= k <= |s| ensures !MatchAt(v, s, i, k) {
            assert s[i + 4..k] == t[..k - i - 4];
          }
        }
        None
    else
      None
  }

  /**
    The leftmost match at or after `i`: starts are tried left to right, the
    first one that matches wins.
  */
  function FirstMatchFrom(v: Version, s: string, i: nat): (r: Option<Span>)
    requires i <= |s|
    decreases |s| - i
    ensures r.Some? ==> i <= r.value.start && MatchAt(v, s, r.value.start, r.value.end)
    ensures r.Some? ==> forall j, k :: i <= j < r.value.start && j <= k <= |s| ==> !MatchAt(v, s, j, k)
    ensures r.Some? ==> forall k :: r.value.end < k <= |s| ==> !MatchAt(v, s, r.value.start, k)
    ensures r.None? ==> forall j, k :: i <= j <= k <= |s| ==> !MatchAt(v, s, j, k)
  {
    match MatchEndAt(v, s, i)
    case Some(k) => Some(Span(i, k))
    case None => if i == |s| then None else FirstMatchFrom(v, s, i + 1)
  }

  /** `regex.matches(in: s, ...).first`, for either reading of the pattern. */
  function FirstMatch(v: Version, s: string): (r: Option<Span>)
    ensures r.Some? ==> MatchAt(v, s, r.value.start, r.value.end)
    ensures r.Some? ==> forall j, k :: 0 <= j < r.value.start && j <= k <= |s| ==> !MatchAt(v, s, j, k)
    ensures r.Some? ==> forall k :: r.value.end < k <= |s| ==> !MatchAt(v, s, r.value.start, k)
    ensures r.None? <==> forall j, k :: 0 <= j <= k <= |s| ==> !MatchAt(v, s, j, k)
  {
    FirstMatchFrom(v, s, 0)
  }

  /**
    The search `cardNumber` performs, with the pattern as written: `None`
    when the pattern does not match anywhere in `s`, otherwise the span of
    the first match.
  */
  function CardNumber(s: string): (r: Option<Span>)
    ensures r.Some? ==> LeadAt(s, r.value.start) && r.value.start + 4 <= r.value.end <= |s|
    ensures r.Some? ==> IssuerRun(AsWritten, s[r.value.start + 4..r.value.end])
    ensures r.None? ==> forall j, k :: 0 <= j <= k <= |s| ==> !MatchAt(AsWritten, s, j, k)
  {
    FirstMatch(AsWritten, s)
  }

  /** The same search with the repaired fifth alternative `3[47][0-9]{13}`. */
  function RepairedCardNumber(s: string): (r: Option<Span>)
    ensures r.Some? ==> LeadAt(s, r.value.start) && r.value.start + 4 <= r.value.end <= |s|
    ensures r.Some? ==> IssuerRun(Intended, s[r.value.start + 4..r.value.end])
    ensures r.None? ==> forall j, k :: 0 <= j <= k <= |s| ==> !MatchAt(Intended, s, j, k)
  {
    FirstMatch(Intended, s)
  }

  /** A call that either returns a value or stops the program with a runtime exception. */
  datatype Call<T> = Returns(value: T) | Traps

  /**
    The whole of `cardNumber`: no match gives `nil`; on a match it asks the
    first result for `range(at: 1)` and `range(at: 2)`. Those exist only when
    the pattern has two capture groups, and this one has none (every group is
    `(?:...)`), so the request is out of range and Foundation raises.
  */
  function CardNumberCall(s: string): (r: Call<Option<(string, string)>>)
    ensures r == Returns(None) <==> CardNumber(s).None?
  {
    match CardNumber(s)
    case None => Returns(None)
    // `range(at: 1)` needs two ranges; `CardPatternHasOnlyRangeZero` shows there is one.
    case Some(_) => Traps
  }

  /** The pattern defines only range 0, the whole match. */
  lemma CardPatternHasOnlyRangeZero(v: Version)
    ensures RangeCount(CardPattern(v)) == 1
  {
    LitHasNoGroups(Lead);
    IssuerPatternHasNoGroups(v);
    assert CardPattern(v) == Cat(Lit(Lead), IssuerPattern(v));
  }

  lemma IssuerPatternHasNoGroups(v: Version)
    ensures GroupCount(IssuerPattern(v)) == 0
  {
    FourSevenHasNoGroups(v);
    JcbHasNoGroups();
    var tail := Alt(FourSevenBranch(v), JcbBranch);
    assert GroupCount(tail) == 0;
    DinersHasNoGroups();
    assert GroupCount(Alt(DinersBranch, tail)) == 0;
    DiscoverHasNoGroups();
    assert GroupCount(Alt(DiscoverBranch, Alt(DinersBranch, tail))) == 0;
    MasterCardHasNoGroups();
    assert GroupCount(Alt(MasterCardBranch, Alt(DiscoverBranch, Alt(DinersBranch, tail)))) == 0;
    VisaHasNoGroups();
  }

  lemma DigitsHaveNoGroups(n: nat)
    ensures GroupCount(Digits(n)) == 0
  {
    RepeatHasNoGroups(Digit, n);
  }

  lemma VisaHasNoGroups()
    ensures GroupCount(VisaBranch) == 0
  {
    LitHasNoGroups("4");
    DigitsHaveNoGroups(12);
    DigitsHaveNoGroups(3);
  }

  lemma MasterCardHasNoGroups()
    ensures GroupCount(MasterCardBranch) == 0
  {
    LitHasNoGroups("5");
    DigitsHaveNoGroups(14);
  }

  lemma DiscoverHasNoGroups()
    ensures GroupCount(DiscoverBranch) == 0
  {
    LitHasNoGroups("6011");
    DigitsHaveNoGroups(12);
  }

  lemma DinersHasNoGroups()
    ensures GroupCount(DinersBranch) == 0
  {
    LitHasNoGroups("3");
    LitHasNoGroups("0");
    DigitsHaveNoGroups(11);
  }

  lemma FourSevenHasNoGroups(v: Version)
    ensures GroupCount(FourSevenBranch(v)) == 0
  {
    LitHasNoGroups("3");
    RepeatHasNoGroups(Class(OneOf("47")), 13);
    DigitsHaveNoGroups(13);
  }

  lemma JcbHasNoGroups()
    ensures GroupCount(JcbBranch) == 0
  {
    LitHasNoGroups("2131");
    LitHasNoGroups("1800");
    LitHasNoGroups("35");
    DigitsHaveNoGroups(3);
    DigitsHaveNoGroups(11);
  }

  /**
    As written, `cardNumber` never hands back a card number: a line without a
    match gives `nil` and a line with one stops at `range(at: 1)`. That a match
    traps is how `CardNumberCall` defines `range(at:)` past the last range; what
    this lemma proves is the group count, that the pattern has no range 1.
  */
  lemma CardNumberNeverReturnsANumber(s: string)
    ensures CardNumberCall(s) == (if CardNumber(s).Some? then Traps else Returns(None))
    ensures RangeCount(CardPattern(AsWritten)) <= 1
  {
    CardPatternHasOnlyRangeZero(AsWritten);
  }

  /** The Visa test number after four spaces is found, so the call stops at `range(at: 1)`. */
  lemma TrapExample()
    ensures CardNumberCall("    4111111111111111") == Traps
  {
    var w := "4111111111111111";
    assert Lead + w == "    4111111111111111";
    assert VisaRun(w);
    MatchedNumberRoundTrip(AsWritten, w);
    CardNumberNeverReturnsANumber(Lead + w);
  }

  /** `w` is the issuer run of a match that starts at `i`, right after its four spaces. */
  predicate NumberAt(v: Version, s: string, i: nat, w: string)
  {
    MatchAt(v, s, i, i + 4 + |w|) && s[i + 4..i + 4 + |w|] == w
  }

  /** No match of the pattern starts before `i`. */
  predicate NoMatchBefore(v: Version, s: string, i: nat)
  {
    forall j, k :: 0 <= j < i && j <= k <= |s| ==> !MatchAt(v, s, j, k)
  }

  /** No match starting at `i` is longer than four spaces and `n` characters. */
  predicate NoLongerAt(v: Version, s: string, i: nat, n: nat)
  {
    forall k :: i + 4 + n < k <= |s| ==> !MatchAt(v, s, i, k)
  }

  /**
    What the function is evidently meant to hand back: the digit run of the
    first match, the leftmost start and, with the greedy `(?:[0-9]{3})?`, the
    longest run there.
  */
  function MatchedNumber(v: Version, s: string): (r: Option<string>)
    ensures r.Some? ==> IssuerRun(v, r.value)
    ensures r.Some? ==> exists i: nat ::
      NumberAt(v, s, i, r.value) && NoMatchBefore(v, s, i) && NoLongerAt(v, s, i, |r.value|)
    ensures r.None? <==> forall j, k :: 0 <= j <= k <= |s| ==> !MatchAt(v, s, j, k)
  {
    match FirstMatch(v, s)
    case None => None
    case Some(sp) =>
      var w := s[sp.start + 4..sp.end];
      assert NumberAt(v, s, sp.start, w) && NoMatchBefore(v, s, sp.start) && NoLongerAt(v, s, sp.start, |w|);
      Some(w)
  }

  /** Round trip: four spaces and any issuer number give back that number. */
  lemma MatchedNumberRoundTrip(v: Version, w: string)
    requires IssuerRun(v, w)
    ensures MatchedNumber(v, Lead + w) == Some(w)
  {
    var s := Lead + w;
    assert s[0..4] == Lead;
    assert LeadAt(s, 0);
    assert s[4..|s|] == w;
    assert MatchAt(v, s, 0, |s|);
    var sp := FirstMatch(v, s).value;
    assert sp.start == 0;
    assert sp.end == |s|;
  }

  /** The character-level match is exactly a whole-word match of the pattern. */
  lemma MatchAtIsPattern(v: Version, s: string, i: nat, k: nat)
    requires i <= k <= |s|
    ensures Matches(CardPattern(v), s[i..k]) <==> MatchAt(v, s, i, k)
  {
    var w := s[i..k];
    CatFixedLeft(Lit(Lead), IssuerPattern(v), w);
    if |w| >= 4 {
      LitMatches(Lead, w[..4]);
      IssuerPatternMatches(v, w[4..]);
      assert w[..4] == s[i..i + 4];
      assert w[4..] == s[i + 4..k];
    }
  }

  /**
    `FirstMatch` is `nil` exactly when no substring of the line matches the
    pattern; otherwise its span matches, no earlier start matches, and no
    longer match exists at the same start.
  */
  lemma FirstMatchIsLeftmostPatternMatch(v: Version, s: string)
    ensures FirstMatch(v, s).None? <==>
      forall i, k :: 0 <= i <= k <= |s| ==> !Matches(CardPattern(v), s[i..k])
    ensures FirstMatch(v, s).Some? ==>
      var sp := FirstMatch(v, s).value;
      && sp.start <= sp.end <= |s|
      && Matches(CardPattern(v), s[sp.start..sp.end])
      && (forall i, k :: 0 <= i < sp.start && i <= k <= |s| ==> !Matches(CardPattern(v), s[i..k]))
      && (forall k :: sp.end < k <= |s| ==> !Matches(CardPattern(v), s[sp.start..k]))
  {
    forall i, k | 0 <= i <= k <= |s|
      ensures Matches(CardPattern(v), s[i..k]) <==> MatchAt(v, s, i, k)
    {
      MatchAtIsPattern(v, s, i, k);
    }
  }

  /** Without four consecutive spaces somewhere in the line there is no match. */
  lemma NoMatchWithoutLead(v: Version, s: string)
    requires forall i: nat :: !LeadAt(s, i)
    ensures FirstMatch(v, s) == None
  {
  }

  /** A bare digit string never matches. */
  lemma DigitsNeverMatch(v: Version, s: string)
    requires AllDigits(s)
    ensures FirstMatch(v, s) == None
  {
    forall i: nat | i + 4 <= |s| ensures !LeadAt(s, i) {
      assert s[i..i + 4][0] == s[i];
    }
    NoMatchWithoutLead(v, s);
  }

  /**
    Text around a line that matches cannot take the match away (the pattern
    is not anchored); it can only move the first match further left.
  */
  lemma MatchSurvivesContext(v: Version, p: string, s: string, t: string)
    requires FirstMatch(v, s).Some?
    ensures FirstMatch(v, p + s + t).Some?
    ensures FirstMatch(v, p + s + t).value.start <= |p| + FirstMatch(v, s).value.start
  {
    var sp := FirstMatch(v, s).value;
    var u := p + s + t;
    var i, k := |p| + sp.start, |p| + sp.end;
    assert MatchAt(v, s, sp.start, sp.end);
    SliceInContext(p, s, t, sp.start, sp.start + 4);
    SliceInContext(p, s, t, sp.start + 4, sp.end);
    assert LeadAt(u, i);
    assert MatchAt(v, u, i, k);
  }

  /** A slice of `s` is the same slice, shifted by `|p|`, of `p + s + t`. */
  lemma SliceInContext(p: string, s: string, t: string, a: nat, b: nat)
    requires a <= b <= |s|
    ensures (p + s + t)[|p| + a..|p| + b] == s[a..b]
  {
    var u := p + s + t;
    forall j | 0 <= j < b - a ensures u[|p| + a..|p| + b][j] == s[a..b][j] {
      assert u[|p| + a + j] == s[a + j];
    }
  }

  /** The two readings differ only on runs that begin with 34 or 37. */
  lemma VersionsDifferOnlyOnThirtyFourThirtySeven(w: string)
    requires !(|w| >= 2 && w[0] == '3' && (w[1] == '4' || w[1] == '7'))
    ensures IssuerRun(AsWritten, w) <==> IssuerRun(Intended, w)
  {
  }

  /** A fifteen-digit American Express number: 34 or 37, then thirteen digits. */
  predicate AmexNumber(w: string)
  {
    |w| == 15 && w[0] == '3' && (w[1] == '4' || w[1] == '7') && AllDigits(w)
  }

  /**
    As written, `3[47]{13}` misses an American Express number unless its
    digits after the leading 3 happen to be all 4s and 7s.
  */
  lemma AsWrittenMissesAmex(w: string)
    requires AmexNumber(w) && !AllIn(OneOf("47"), w[1..14])
    ensures CardNumber(Lead + w) == None
  {
    var s := Lead + w;
    forall j, k | 0 <= j <= k <= |s| ensures !MatchAt(AsWritten, s, j, k) {
      if j == 0 && 4 <= k {
        var run := s[4..k];
        assert run == w[..k - 4];
        if |run| >= 2 {
          assert run[0] == '3' && (run[1] == '4' || run[1] == '7');
        }
        if |run| == 14 {
          assert run[1..] == w[1..14];
        }
      } else if 0 < j && j + 4 <= k {
        assert s[j..j + 4][3] == w[j - 1];
        assert IsDigit(w[j - 1]);
        assert !LeadAt(s, j);
      }
    }
  }

  /** With `3[47][0-9]{13}` the same number is found, as the whole match. */
  lemma IntendedFindsAmex(w: string)
    requires AmexNumber(w)
    ensures RepairedCardNumber(Lead + w) == Some(Span(0, 19))
  {
    var s := Lead + w;
    assert s[0..4] == Lead;
    assert LeadAt(s, 0);
    assert s[4..19] == w;
    AllInSplit(DigitClass, w, 2);
    assert MatchAt(Intended, s, 0, 19);
  }

  /** The American Express test number 378282246310005 shows the difference. */
  lemma AmexExample()
    ensures CardNumber("    378282246310005") == None
    ensures RepairedCardNumber("    378282246310005") == Some(Span(0, 19))
  {
    var w := "378282246310005";
    assert Lead + w == "    378282246310005";
    assert w[2] == '8' && !InClass(OneOf("47"), w[1..14][1]);
    AsWrittenMissesAmex(w);
    IntendedFindsAmex(w);
  }
}

=== FILE: expiry.dfy ===
/**
  `expireDateString`: the anchored pattern `^.*(0[1-9]|1[0-2])\/([1-2][0-9])$`
  applied to one recognised line, returning capture groups 1 (month) and
  2 (year).
*/
module Expiry {
  import opened Wrappers
  import opened Regex

  /** The body of capture group 1, `(0[1-9]|1[0-2])`. */
  const MonthGroup: Regex :=
    Alt(Cat(Lit("0"), Class(Range('1', '9'))), Cat(Lit("1"), Class(Range('0', '2'))))

  /** The body of capture group 2, `([1-2][0-9])`. */
  const YearGroup: Regex :=
    Cat(Class(Range('1', '2')), Class(Range('0', '9')))

  /** What follows `.*`: month, `\/`, year. */
  const DateTail: Regex := Cat(Group(MonthGroup), Cat(Lit("/"), Group(YearGroup)))

  /** The whole pattern; `^` and `$` make `Matches` (a whole-word match) the right reading. */
  const ExpiryPattern: Regex := Cat(Star(Class(AnyChar)), DateTail)

  /** A month as the pattern accepts it: "01" to "09", "10" to "12". */
  predicate IsMonth(m: string)
  {
    && |m| == 2
    && ((m[0] == '0' && '1' <= m[1] <= '9') || (m[0] == '1' && '0' <= m[1] <= '2'))
  }

  /** A year as the pattern accepts it: "10" to "29". */
  predicate IsYear(y: string)
  {
    |y| == 2 && '1' <= y[0] <= '2' && '0' <= y[1] <= '9'
  }

  /**
    Since `.*` takes any prefix and the date part has a fixed width of five
    characters before `$`, the last five characters decide the result.
  */
  function ExpireDateString(s: string): (r: Option<(string, string)>)
    ensures r.Some? ==> |s| >= 5 && IsMonth(r.value.0) && IsYear(r.value.1)
    ensures r.Some? ==> s == s[..|s| - 5] + r.value.0 + "/" + r.value.1
  {
    if |s| < 5 then None
    else
      var month, slash, year := s[|s| - 5..|s| - 3], s[|s| - 3], s[|s| - 2..];
      if IsMonth(month) && slash == '/' && IsYear(year) then
        assert s == s[..|s| - 5] + month + "/" + year;
        Some((month, year))
      else
        None
  }

  /**
    A match of the pattern carries three ranges: the whole match, the month and
    the year, so the requests for `range(at: 1)` and `range(at: 2)` are in range.
  */
  lemma ExpiryPatternHasTwoGroups()
    ensures RangeCount(ExpiryPattern) == 3
  {
    LitHasNoGroups("0");
    LitHasNoGroups("1");
    LitHasNoGroups("/");
    assert GroupCount(MonthGroup) == 0;
    assert GroupCount(YearGroup) == 0;
    assert GroupCount(DateTail) == 2;
  }

  lemma MonthGroupIsMonth(w: string)
    ensures Matches(MonthGroup, w) <==> IsMonth(w)
  {
    CatFixedLeft(Lit("0"), Class(Range('1', '9')), w);
    CatFixedLeft(Lit("1"), Class(Range('0', '2')), w);
    if |w| >= 1 {
      LitMatches("0", w[..1]);
      LitMatches("1", w[..1]);
    }
  }

  lemma YearGroupIsYear(w: string)
    ensures Matches(YearGroup, w) <==> IsYear(w)
  {
    CatFixedLeft(Class(Range('1', '2')), Class(Range('0', '9')), w);
  }

  lemma DateTailChars(t: string)
    ensures Matches(DateTail, t) <==> |t| == 5 && IsMonth(t[..2]) && t[2] == '/' && IsYear(t[3..])
  {
    CatFixedLeft(Group(MonthGroup), Cat(Lit("/"), Group(YearGroup)), t);
    if |t| >= 2 {
      MonthGroupIsMonth(t[..2]);
      CatFixedLeft(Lit("/"), Group(YearGroup), t[2..]);
      if |t| >= 3 {
        LitMatches("/", t[2..][..1]);
        YearGroupIsYear(t[2..][1..]);
        assert t[2..][1..] == t[3..];
      }
    }
    if Matches(DateTail, t) {
      WidthIsLength(DateTail, t);
    }
  }

  /**
    The extractor succeeds exactly on the lines the anchored pattern matches
    as a whole.
  */
  lemma ExpireDateStringMatchesPattern(s: string)
    ensures ExpireDateString(s).Some? <==> Matches(ExpiryPattern, s)
  {
    assert Width(DateTail) == Some(5);
    CatFixedRight(Star(Class(AnyChar)), DateTail, s);
    if |s| >= 5 {
      AnyStarMatchesAll(s[..|s| - 5]);
      DateTailChars(s[|s| - 5..]);
      assert s[|s| - 5..][..2] == s[|s| - 5..|s| - 3];
      assert s[|s| - 5..][3..] == s[|s| - 2..];
    }
  }

  /**
    The captures: the result is `(m, y)` exactly when the line is some prefix
    followed by `m`, a slash and `y`, with `m` in the month group and `y` in the
    year group.
  */
  lemma ExpireDateStringCaptures(s: string, m: string, y: string)
    ensures ExpireDateString(s) == Some((m, y)) <==>
      exists p :: s == p + m + "/" + y && Matches(MonthGroup, m) && Matches(YearGroup, y)
  {
    MonthGroupIsMonth(m);
    YearGroupIsYear(y);
    if ExpireDateString(s) == Some((m, y)) {
      var p := s[..|s| - 5];
      assert s == p + m + "/" + y;
    } else {
      CapturesOnlyFromResult(s, m, y);
    }
  }

  /** Any split of the line into a prefix and a valid date is the one the function reports. */
  lemma CapturesOnlyFromResult(s: string, m: string, y: string)
    requires ExpireDateString(s) != Some((m, y))
    ensures forall p :: !(s == p + m + "/" + y && IsMonth(m) && IsYear(y))
  {
    forall p | s == p + m + "/" + y && IsMonth(m) && IsYear(y)
      ensures false
    {
      RoundTrip(p, m, y);
    }
  }

  /** In a line ending in a month, a slash and a year, those are the last five characters. */
  lemma LastFive(p: string, m: string, y: string)
    requires |m| == 2 && |y| == 2
    ensures var s := p + m + "/" + y;
      |s| >= 5 && s[|s| - 5..|s| - 3] == m && s[|s| - 3] == '/' && s[|s| - 2..] == y
  {
    var s := p + m + "/" + y;
    assert s[|s| - 5..|s| - 3] == m;
    assert s[|s| - 2..] == y;
  }

  /** Round trip: whatever precedes a valid date, the date comes back out. */
  lemma RoundTrip(p: string, m: string, y: string)
    requires IsMonth(m) && IsYear(y)
    ensures ExpireDateString(p + m + "/" + y) == Some((m, y))
  {
    LastFive(p, m, y);
  }

  /** Text in front of the last five characters never changes the result. */
  lemma OnlyLastFiveMatter(p: string, t: string)
    requires |t| >= 5
    ensures ExpireDateString(p + t) == ExpireDateString(t)
  {
    var s := p + t;
    assert s[|s| - 5..|s| - 3] == t[|t| - 5..|t| - 3];
    assert s[|s| - 2..] == t[|t| - 2..];
    assert s[|s| - 3] == t[|t| - 3];
  }

  /** `$`: one more character after a recognised date makes the line fail. */
  lemma TrailingCharacterRejected(s: string, c: char)
    requires ExpireDateString(s).Some?
    ensures ExpireDateString(s + [c]) == None
  {
    var s' := s + [c];
    assert s'[|s'| - 4] == s[|s| - 3] == '/';
  }

  /** The expected behaviour on a few concrete lines. */
  lemma Examples()
    ensures ExpireDateString("EXP 12/25") == Some(("12", "25"))
    ensures ExpireDateString("12/25") == Some(("12", "25"))
    ensures ExpireDateString("12/25 ") == None
    ensures ExpireDateString("00/25") == None
    ensures ExpireDateString("13/25") == None
    ensures ExpireDateString("12/35") == None
    ensures ExpireDateString("2/25") == None
  {
    RoundTrip("EXP ", "12", "25");
    assert "EXP " + "12" + "/" + "25" == "EXP 12/25";
    RoundTrip("", "12", "25");
    assert "" + "12" + "/" + "25" == "12/25";
    TrailingCharacterRejected("12/25", ' ');
  }
}

=== FILE: frame.dfy ===
/**
  The extraction step of the text-recognition callback: after recognition
  produced the frame's lines, an empty list ends the callback, otherwise empty
  lines are dropped and each extractor is applied to every remaining line,
  keeping the non-nil results in line order.
*/
module Frame {
  import opened Wrappers
  import Expiry
  import CardNumbers

  /** What one frame yields: the expiry dates and the card-number matches found, line by line. */
  datatype Candidates = Candidates(expiries: seq<(string, string)>, cardNumbers: seq<CardNumbers.Span>)

  /** `filter { !$0.isEmpty }` */
  function NonEmptyLines(lines: seq<string>): (r: seq<string>)
    ensures |r| <= |lines|
    ensures forall l :: l in r <==> l in lines && l != ""
  {
    if |lines| == 0 then []
    else
      assert forall l :: l in lines <==> l == lines[0] || l in lines[1..];
      (if lines[0] != "" then [lines[0]] else []) + NonEmptyLines(lines[1..])
  }

  /** `compactMap(f)`: the values of the calls that did not return nil, in order. */
  function CompactMap<T>(f: string -> Option<T>, lines: seq<string>): (r: seq<T>)
    ensures |r| <= |lines|
    ensures (forall l | l in lines :: f(l).None?) ==> r == []
  {
    if |lines| == 0 then []
    else (if f(lines[0]).Some? then [f(lines[0]).value] else []) + CompactMap(f, lines[1..])
  }

  /** One extractor over one frame's lines: `filter { !$0.isEmpty }.compactMap(f)`. */
  function Extract<T>(f: string -> Option<T>, lines: seq<string>): (r: seq<T>)
    ensures |r| <= |NonEmptyLines(lines)| <= |lines|
    ensures (forall l | l in lines :: l == "" || f(l).None?) ==> r == []
  {
    CompactMap(f, NonEmptyLines(lines))
  }

  /**
    The extraction body of the callback: `None` is the early return on an
    empty recognition result; otherwise both extractors run over the lines.
  */
  function ProcessFrame(lines: seq<string>): (r: Option<Candidates>)
    ensures r.None? <==> |lines| == 0
    ensures r.Some? ==> |r.value.expiries| <= |NonEmptyLines(lines)| <= |lines|
    ensures r.Some? ==> |r.value.cardNumbers| <= |NonEmptyLines(lines)|
    ensures r.Some? ==> forall x :: x in r.value.expiries <==>
      exists i :: 0 <= i < |lines| && lines[i] != "" && Expiry.ExpireDateString(lines[i]) == Some(x)
    ensures r.Some? ==> forall x :: x in r.value.cardNumbers <==>
      exists i :: 0 <= i < |lines| && lines[i] != "" && CardNumbers.CardNumber(lines[i]) == Some(x)
  {
    if |lines| == 0 then None
    else
      var expiries := Extract(Expiry.ExpireDateString, lines);
      var cardNumbers := Extract(CardNumbers.CardNumber, lines);
      assert forall x :: x in expiries <==>
        exists i :: 0 <= i < |lines| && lines[i] != "" && Expiry.ExpireDateString(lines[i]) == Some(x) by {
        forall x {
          ExtractMembership(Expiry.ExpireDateString, lines, x);
        }
      }
      assert forall x :: x in cardNumbers <==>
        exists i :: 0 <= i < |lines| && lines[i] != "" && CardNumbers.CardNumber(lines[i]) == Some(x) by {
        forall x {
          ExtractMembership(CardNumbers.CardNumber, lines, x);
        }
      }
      Some(Candidates(expiries, cardNumbers))
  }

  /** Filtering a concatenation filters each part: kept lines stay in order, each once. */
  lemma {:induction false} NonEmptyLinesAppend(a: seq<string>, b: seq<string>)
    ensures NonEmptyLines(a + b) == NonEmptyLines(a) + NonEmptyLines(b)
    decreases |a|
  {
    if |a| > 0 {
      assert (a + b)[0] == a[0];
      assert (a + b)[1..] == a[1..] + b;
      NonEmptyLinesAppend(a[1..], b);
    } else {
      assert a + b == b;
    }
  }

  /** One line is kept exactly when it is non-empty. */
  lemma NonEmptyLinesOne(l: string)
    ensures NonEmptyLines([l]) == if l == "" then [] else [l]
  {
    assert [l][1..] == [];
  }

  /** Mapping a concatenation maps each part: values stay in line order, one per line at most. */
  lemma {:induction false} CompactMapAppend<T>(f: string -> Option<T>, a: seq<string>, b: seq<string>)
    ensures CompactMap(f, a + b) == CompactMap(f, a) + CompactMap(f, b)
    decreases |a|
  {
    if |a| > 0 {
      assert (a + b)[0] == a[0];
      assert (a + b)[1..] == a[1..] + b;
      CompactMapAppend(f, a[1..], b);
    } else {
      assert a + b == b;
    }
  }

  /** One line contributes its value when the call does not return nil, and nothing otherwise. */
  lemma CompactMapOne<T>(f: string -> Option<T>, l: string)
    ensures CompactMap(f, [l]) == match f(l) case Some(x) => [x] case None => []
  {
    assert [l][1..] == [];
  }

  /** The output of one line on its own. */
  function LineResult<T>(f: string -> Option<T>, l: string): seq<T>
  {
    if l != "" && f(l).Some? then [f(l).value] else []
  }

  /** The first line's result comes first, then the rest of the frame's. */
  lemma ExtractCons<T>(f: string -> Option<T>, lines: seq<string>)
    requires |lines| > 0
    ensures Extract(f, lines) == LineResult(f, lines[0]) + Extract(f, lines[1..])
  {
    var rest := NonEmptyLines(lines[1..]);
    if lines[0] != "" {
      assert NonEmptyLines(lines) == [lines[0]] + rest;
      assert ([lines[0]] + rest)[1..] == rest;
      assert CompactMap(f, NonEmptyLines(lines)) == LineResult(f, lines[0]) + CompactMap(f, rest);
    } else {
      assert NonEmptyLines(lines) == rest;
    }
  }

  /** A single line yields its extractor's value when it is non-empty and the value is not nil. */
  lemma {:induction false} ExtractOneLine<T>(f: string -> Option<T>, l: string)
    ensures Extract(f, [l]) == LineResult(f, l)
  {
    assert [l][1..] == [];
  }

  /** Splitting a frame's lines splits the output the same way: results stay in line order. */
  lemma {:induction false} ExtractAppend<T>(f: string -> Option<T>, a: seq<string>, b: seq<string>)
    ensures Extract(f, a + b) == Extract(f, a) + Extract(f, b)
    decreases |a|
  {
    if |a| > 0 {
      assert (a + b)[1..] == a[1..] + b;
      ExtractAppend(f, a[1..], b);
      ExtractCons(f, a + b);
      ExtractCons(f, a);
    } else {
      assert a + b == b;
    }
  }

  /** A value is in the output exactly when some non-empty line produced it. */
  lemma {:induction false} ExtractMembership<T>(f: string -> Option<T>, lines: seq<string>, x: T)
    ensures x in Extract(f, lines) <==> exists i :: 0 <= i < |lines| && lines[i] != "" && f(lines[i]) == Some(x)
    decreases |lines|
  {
    if |lines| > 0 {
      ExtractMembership(f, lines[1..], x);
      ExtractCons(f, lines);
      if exists i :: 0 <= i < |lines| && lines[i] != "" && f(lines[i]) == Some(x) {
        var i :| 0 <= i < |lines| && lines[i] != "" && f(lines[i]) == Some(x);
        if i > 0 {
          assert lines[1..][i - 1] == lines[i];
        }
      }
      if exists i :: 0 <= i < |lines| - 1 && lines[1..][i] != "" && f(lines[1..][i]) == Some(x) {
        var i :| 0 <= i < |lines| - 1 && lines[1..][i] != "" && f(lines[1..][i]) == Some(x);
        assert lines[i + 1] == lines[1..][i];
      }
    }
  }

  /** When the extractor already returns nil on "", dropping empty lines changes nothing. */
  lemma {:induction false} FilterIsUnobservable<T>(f: string -> Option<T>, lines: seq<string>)
    requires f("") == None
    ensures Extract(f, lines) == CompactMap(f, lines)
    decreases |lines|
  {
    if |lines| > 0 {
      FilterIsUnobservable(f, lines[1..]);
      ExtractCons(f, lines);
    }
  }

  /** Both extractors return nil on the empty string, so the filter is redundant for them. */
  lemma FilterIsRedundant(lines: seq<string>)
    ensures Extract(Expiry.ExpireDateString, lines) == CompactMap(Expiry.ExpireDateString, lines)
    ensures Extract(CardNumbers.CardNumber, lines) == CompactMap(CardNumbers.CardNumber, lines)
  {
    assert Expiry.ExpireDateString("") == None;
    assert CardNumbers.CardNumber("") == None;
    FilterIsUnobservable(Expiry.ExpireDateString, lines);
    FilterIsUnobservable(CardNumbers.CardNumber, lines);
  }

  /** An empty recognition result yields nothing; an expiry line among empty ones yields its date. */
  lemma FrameExamples()
    ensures ProcessFrame([]) == None
    ensures ProcessFrame(["", "EXP 12/25", ""]) == Some(Candidates([("12", "25")], []))
  {
    var lines := ["", "EXP 12/25", ""];
    ExpiryLineExample();
    NoCardNumberOnExpiryLine();
    assert forall l | l in lines :: l == "" || l == "EXP 12/25";
  }

  lemma ExpiryLineExample()
    ensures Extract(Expiry.ExpireDateString, ["", "EXP 12/25", ""]) == [("12", "25")]
  {
    var lines := ["", "EXP 12/25", ""];
    var f := Expiry.ExpireDateString;
    Expiry.Examples();
    assert lines[1..] == ["EXP 12/25", ""];
    assert lines[1..][1..] == [""];
    ExtractCons(f, lines);
    ExtractCons(f, lines[1..]);
    ExtractOneLine(f, "");
    assert LineResult(f, "EXP 12/25") == [("12", "25")];
  }

  lemma NoCardNumberOnExpiryLine()
    ensures CardNumbers.CardNumber("EXP 12/25") == None
  {
    forall i: nat ensures !CardNumbers.LeadAt("EXP 12/25", i) {
      if i + 4 <= 9 {
        assert "EXP 12/25"[i..i + 4] != CardNumbers.Lead by {
          assert "EXP 12/25"[i + 1] != ' ' || "EXP 12/25"[i] != ' ';
        }
      }
    }
    CardNumbers.NoMatchWithoutLead(CardNumbers.AsWritten, "EXP 12/25");
  }
}

=== FILE: regex.dfy ===
/**
  The fragment of the regular-expression language that the two patterns of the
  card reader use: `.`, literal characters, bracket classes, concatenation,
  alternation, `*`, `{n}`, `?` and capture groups `( )`.

  `Matches(r, w)` says that the WHOLE of `w` is in the language of `r`, so it
  reads alternation as a union and says nothing about which branch a
  backtracking matcher tries first; where that order matters (the card-number
  search) the caller models it separately. Anchors and unanchored search are
  also expressed by the callers on top of `Matches`.
*/
module Regex {
  import opened Wrappers

  /** A pattern element that consumes exactly one character. */
  datatype CharClass =
    | AnyChar                   // `.`
    | Single(c: char)           // a literal character such as `4` or `\/`
    | Range(lo: char, hi: char) // `[lo-hi]`
    | OneOf(chars: seq<char>)   // `[47]`, `[68]`

  predicate InClass(k: CharClass, c: char)
  {
    match k
    case AnyChar => true
    case Single(d) => c == d
    case Range(lo, hi) => lo <= c <= hi
    case OneOf(cs) => c in cs
  }

  datatype Regex =
    | Empty                              // the empty pattern
    | Class(k: CharClass)
    | Cat(left: Regex, right: Regex)     // `left right`
    | Alt(first: Regex, second: Regex)   // `first|second` (`(?:first|second)`)
    | Star(body: Regex)                  // `body*`
    | Group(body: Regex)                 // `(body)`, a capture group

  /** The language of a pattern: `w` as a whole is matched by `r`. */
  ghost predicate Matches(r: Regex, w: string)
    decreases r, |w|
  {
    match r
    case Empty => |w| == 0
    case Class(k) => |w| == 1 && InClass(k, w[0])
    case Cat(a, b) => exists i :: 0 <= i <= |w| && Matches(a, w[..i]) && Matches(b, w[i..])
    case Alt(a, b) => Matches(a, w) || Matches(b, w)
    case Star(a) => |w| == 0 || exists i :: 0 < i <= |w| && Matches(a, w[..i]) && Matches(Star(a), w[i..])
    case Group(a) => Matches(a, w)
  }

  /** The number of capture groups in `r`, counted as the engine numbers them. */
  function GroupCount(r: Regex): nat
  {
    match r
    case Empty => 0
    case Class(_) => 0
    case Cat(a, b) => GroupCount(a) + GroupCount(b)
    case Alt(a, b) => GroupCount(a) + GroupCount(b)
    case Star(a) => GroupCount(a)
    case Group(a) => 1 + GroupCount(a)
  }

  /**
    `NSTextCheckingResult.numberOfRanges` for a match of `r`: the whole match
    (range 0) and one range per capture group. `range(at: i)` is defined only
    for `i < RangeCount(r)`.
  */
  function RangeCount(r: Regex): nat
  {
    1 + GroupCount(r)
  }

  /** The length every word of `r` has, when all its words have the same length. */
  function Width(r: Regex): Option<nat>
  {
    match r
    case Empty => Some(0)
    case Class(_) => Some(1)
    case Cat(a, b) =>
      if Width(a).Some? && Width(b).Some? then Some(Width(a).value + Width(b).value) else None
    case Alt(a, b) =>
      if Width(a).Some? && Width(a) == Width(b) then Width(a) else None
    case Star(_) => None
    case Group(a) => Width(a)
  }

  /** The literal string `s`, one character after another. */
  function Lit(s: string): (r: Regex)
    ensures Width(r) == Some(|s|)
  {
    if |s| == 0 then Empty else Cat(Class(Single(s[0])), Lit(s[1..]))
  }

  /** `r{n}`: exactly `n` consecutive copies of `r`. */
  function Repeat(r: Regex, n: nat): (q: Regex)
    ensures Width(r) == Some(1) ==> Width(q) == Some(n)
  {
    if n == 0 then Empty else Cat(r, Repeat(r, n - 1))
  }

  /** A literal has no capture groups. */
  lemma {:induction false} LitHasNoGroups(s: string)
    ensures GroupCount(Lit(s)) == 0
  {
    if |s| > 0 {
      LitHasNoGroups(s[1..]);
    }
  }

  /** Repeating a group-free expression adds no capture groups. */
  lemma {:induction false} RepeatHasNoGroups(r: Regex, n: nat)
    requires GroupCount(r) == 0
    ensures GroupCount(Repeat(r, n)) == 0
  {
    if n > 0 {
      RepeatHasNoGroups(r, n - 1);
    }
  }

  /** `r?`: `r` or nothing, `r` tried first. */
  function Opt(r: Regex): Regex
  {
    Alt(r, Empty)
  }

  /** Every character of `w` is in the class `k`. */
  predicate AllIn(k: CharClass, w: string)
  {
    forall j :: 0 <= j < |w| ==> InClass(k, w[j])
  }

  /** A fixed-width pattern only matches words of that width. */
  lemma {:induction false} WidthIsLength(r: Regex, w: string)
    requires Width(r).Some? && Matches(r, w)
    ensures |w| == Width(r).value
  {
    match r
    case Empty =>
    case Class(_) =>
    case Cat(a, b) =>
      var i :| 0 <= i <= |w| && Matches(a, w[..i]) && Matches(b, w[i..]);
      WidthIsLength(a, w[..i]);
      WidthIsLength(b, w[i..]);
    case Alt(a, b) =>
      if Matches(a, w) {
        WidthIsLength(a, w);
      } else {
        WidthIsLength(b, w);
      }
    case Group(a) =>
      WidthIsLength(a, w);
  }

  /** A concatenation whose left part has a fixed width splits at that width. */
  lemma CatFixedLeft(a: Regex, b: Regex, w: string)
    requires Width(a).Some?
    ensures Matches(Cat(a, b), w) <==>
      Width(a).value <= |w| && Matches(a, w[..Width(a).value]) && Matches(b, w[Width(a).value..])
  {
    var k := Width(a).value;
    if Matches(Cat(a, b), w) {
      var i :| 0 <= i <= |w| && Matches(a, w[..i]) && Matches(b, w[i..]);
      WidthIsLength(a, w[..i]);
      assert i == k;
    }
    if k <= |w| && Matches(a, w[..k]) && Matches(b, w[k..]) {
      CatSplitAt(a, b, w, k);
    }
  }

  /** A concatenation whose right part has a fixed width splits that far from the end. */
  lemma CatFixedRight(a: Regex, b: Regex, w: string)
    requires Width(b).Some?
    ensures Matches(Cat(a, b), w) <==>
      Width(b).value <= |w| && Matches(a, w[..|w| - Width(b).value]) && Matches(b, w[|w| - Width(b).value..])
  {
    CatFixedRightSplit(a, b, w);
    CatFixedRightJoin(a, b, w);
  }

  /** The only split of a match of `Cat(a, b)` with fixed-width `b` is that far from the end. */
  lemma CatFixedRightSplit(a: Regex, b: Regex, w: string)
    requires Width(b).Some?
    ensures Matches(Cat(a, b), w) ==>
      Width(b).value <= |w| && Matches(a, w[..|w| - Width(b).value]) && Matches(b, w[|w| - Width(b).value..])
  {
    if Matches(Cat(a, b), w) {
      var i :| 0 <= i <= |w| && Matches(a, w[..i]) && Matches(b, w[i..]);
      WidthIsLength(b, w[i..]);
    }
  }

  lemma CatFixedRightJoin(a: Regex, b: Regex, w: string)
    requires Width(b).Some?
    ensures Width(b).value <= |w| && Matches(a, w[..|w| - Width(b).value]) && Matches(b, w[|w| - Width(b).value..]) ==>
      Matches(Cat(a, b), w)
  {
    var k := Width(b).value;
    if k <= |w| && Matches(a, w[..|w| - k]) && Matches(b, w[|w| - k..]) {
      CatSplitAt(a, b, w, |w| - k);
    }
  }

  /** A split point whose two sides match is a witness for the concatenation. */
  lemma CatSplitAt(a: Regex, b: Regex, w: string, i: nat)
    requires i <= |w| && Matches(a, w[..i]) && Matches(b, w[i..])
    ensures Matches(Cat(a, b), w)
  {
  }

  /** A literal matches itself and nothing else. */
  lemma {:induction false} LitMatches(s: string, w: string)
    ensures Matches(Lit(s), w) <==> w == s
  {
    if |s| > 0 {
      CatFixedLeft(Class(Single(s[0])), Lit(s[1..]), w);
      if |w| >= 1 {
        LitMatches(s[1..], w[1..]);
        if w[1..] == s[1..] && w[0] == s[0] {
          assert w == [w[0]] + w[1..];
          assert s == [s[0]] + s[1..];
        }
      }
    }
  }

  /** `[class]{n}` matches exactly the words of length `n` drawn from the class. */
  lemma {:induction false} RepeatClassMatches(k: CharClass, n: nat, w: string)
    ensures Matches(Repeat(Class(k), n), w) <==> |w| == n && AllIn(k, w)
  {
    if n > 0 {
      CatFixedLeft(Class(k), Repeat(Class(k), n - 1), w);
      if |w| >= 1 {
        RepeatClassMatches(k, n - 1, w[1..]);
        AllInCons(k, w);
      }
    }
  }

  /** A class holds on a non-empty word when it holds on its head and its tail. */
  lemma AllInCons(k: CharClass, w: string)
    requires |w| >= 1
    ensures AllIn(k, w) <==> InClass(k, w[0]) && AllIn(k, w[1..])
  {
    if InClass(k, w[0]) && AllIn(k, w[1..]) {
      forall j | 0 <= j < |w| ensures InClass(k, w[j]) {
        if j > 0 {
          assert w[j] == w[1..][j - 1];
        }
      }
    }
  }

  /** `.*` matches every word. */
  lemma {:induction false} AnyStarMatchesAll(w: string)
    ensures Matches(Star(Class(AnyChar)), w)
    decreases |w|
  {
    if |w| > 0 {
      AnyStarMatchesAll(w[1..]);
      assert Matches(Class(AnyChar), w[..1]);
    }
  }

  /** A class holds on a word exactly when it holds on both halves of any split. */
  lemma AllInSplit(k: CharClass, w: string, i: nat)
    requires i <= |w|
    ensures AllIn(k, w) <==> AllIn(k, w[..i]) && AllIn(k, w[i..])
  {
    if AllIn(k, w[..i]) && AllIn(k, w[i..]) {
      forall j | 0 <= j < |w| ensures InClass(k, w[j]) {
        if j < i {
          assert w[j] == w[..i][j];
        } else {
          assert w[j] == w[i..][j - i];
        }
      }
    }
  }

  /** Concatenation distributes over alternation on the left. */
  lemma CatAltLeft(a: Regex, b: Regex, c: Regex, w: string)
    ensures Matches(Cat(Alt(a, b), c), w) <==> Matches(Cat(a, c), w) || Matches(Cat(b, c), w)
  {
    if Matches(Cat(a, c), w) {
      var i :| 0 <= i <= |w| && Matches(a, w[..i]) && Matches(c, w[i..]);
      assert Matches(Alt(a, b), w[..i]);
    }
    if Matches(Cat(b, c), w) {
      var i :| 0 <= i <= |w| && Matches(b, w[..i]) && Matches(c, w[i..]);
      assert Matches(Alt(a, b), w[..i]);
    }
  }

  /** Alternation is the union of the two languages. */
  lemma AltMatches(a: Regex, b: Regex, w: string)
    ensures Matches(Alt(a, b), w) <==> Matches(a, w) || Matches(b, w)
  {
  }
}

=== FILE: wrappers.dfy ===
/** The optional value that stands for Swift's `T?` throughout the model. */
module Wrappers {

  datatype Option<+T> = None | Some(value: T)
}
